=== FILE: README.md ===
# Daily study checklist — a Dafny model of its logic

The tracker is a single React component (`main.py`, JavaScript despite its
name). Around its rendering code sits a small amount of pure logic, and this
project models that logic and proves properties of it:

- the **day classifier** (`getDayType`): weekday number to one of four day
  types, Sunday, Saturday, Monday/Wednesday/Friday (`mwf`) and
  Tuesday/Thursday (`tt`);
- the **target table** (`targetStudyHours`): 11, 3, 8 and 9.5 hours;
- the **evaluator** (`evaluateStudyPerformance`): `good` when the logged hours
  reach the target, otherwise `no-data` for zero hours and `bad` for anything
  else;
- the **checklist state** (`handleCheck`, `isChecked`): date key to item id to
  checked flag, where toggling flips one entry and an absent entry reads as
  unchecked;
- the **study-hours state** (`handleStudyHoursChange`): date key to hours,
  where unparseable input is stored as 0 and no range check is applied;
- the **export rows** (`exportToCSV` before `Papa.unparse`): one row per date
  key of the checklist, with target, logged hours (0 when absent) and
  evaluation;
- the **month dates** (`generateCalendarDates`): day 1 to the last day of the
  selected month, one date per day.

Modules, one per component:

| file | module | models |
|---|---|---|
| `wrappers.dfy` | `Wrappers` | `Option`, standing for `undefined` and `NaN` |
| `calendar.dfy` | `Calendar` | civil dates, Gregorian month lengths, day numbers, `getDay()`, `setDate(+1)`, `generateCalendarDates` |
| `js_object.dfy` | `JsObject` | a JavaScript object used as a dictionary: its entries and the key order `Object.keys` reports |
| `schedule.dfy` | `Schedule` | `getDayType`, `targetStudyHours` |
| `evaluation.dfy` | `Evaluation` | the three-way comparison inside `evaluateStudyPerformance` |
| `tracker.dfy` | `Tracker` | the `checklist` and `studyHours` state, `handleCheck`, `isChecked`, `handleStudyHoursChange`, `evaluateStudyPerformance` |
| `export.dfy` | `Export` | the row construction of `exportToCSV` |

A date key is a `CivilDate` (year, month 1..12, day), a subset type that
admits only dates which exist. The weekday of a date comes from a proleptic
Gregorian day count from 1970-01-01, which is what a JavaScript `Date` uses.
Hours are `real`, so 9.5 and half-hour steps are exact.

Two points of the code are worth stating explicitly:

- **Order of the evaluator's tests.** The code tests `actualHours >= targetHours`
  before `actualHours === 0`. `Evaluation.OrderIrrelevantForPositiveTarget`
  proves that a zero-first order would agree, because every target is
  positive. `Evaluation.OrderMattersForNonPositiveTarget` shows the two orders
  would differ for a target of zero or less.
- **Range of the hours.** Nothing bounds the stored hours.
  `Tracker.NegativeHoursStored` states that negative values are kept.

Toggling an item twice restores what `isChecked` reports but not the state:
an item that was never recorded is left with an explicit `false` entry.
`Tracker.ToggleTwice` proves the first half and `Tracker.ToggleTwiceRecordsFalse`
the second.

## Model

| member | source | states |
|---|---|---|
| `Schedule.DayTypeOf` | main.py:20-26 | weekday 0 is exactly Sunday, 6 exactly Saturday, the odd weekdays 1, 3, 5 exactly `mwf`, and 2 and 4 exactly `tt` |
| `Schedule.TargetFor` | main.py:13-18 | every day type has a target: `mwf` 8, `tt` 9.5, `saturday` 3 and `sunday` 11 hours, all positive |
| `Schedule.TargetTableTotal` | main.py:13-18 | the target table has an entry for each of the four day types, and all the entries are positive |
| `Schedule.WeekdayTargets` | main.py:13-26 | Sunday's target is 11 hours, Saturday's is 3, Monday/Wednesday/Friday's is 8 and Tuesday/Thursday's is 9.5 |
| `Evaluation.Evaluate` | main.py:90-92 | the three outcomes are exclusive and exhaustive: `good` exactly when hours reach the target (equality included), `no-data` exactly when they fall short and are zero, and `bad` exactly when they fall short and are not zero |
| `Evaluation.OrderIrrelevantForPositiveTarget` | main.py:90-91 | for a positive target, testing the target first gives the same outcome as testing zero first |
| `Evaluation.OrderMattersForNonPositiveTarget` | main.py:90-91 | for a target of zero or less, zero hours would be `good` under the code's order but `no-data` under the zero-first order |
| `Evaluation.ZeroHoursIsNoData` | main.py:90-91 | against a positive target, zero hours is `no-data` and never `good` |
| `Evaluation.TargetBoundary` | main.py:90-92 | hours equal to the target are `good`, and any nonzero amount below it is `bad` |
| `Evaluation.GoodIsUpwardClosed` | main.py:90 | a day that is `good` stays `good` when more hours are logged |
| `Tracker.IsChecked` | main.py:79-82 | an item reads as checked exactly when a `true` flag is recorded for it on that date, so a date or item never recorded reads as unchecked |
| `Tracker.ItemsOn` | main.py:65 | the flags of a recorded date are its stored flag object, and a date never recorded gives an empty object (`{...undefined}` is `{}`) |
| `Tracker.Toggle` | main.py:60-69 | toggling flips the reading of that item on that date, and the reading of every other item on every date stays as it was |
| `Tracker.ToggleRecords` | main.py:62-67 | after a toggle the date is recorded; a date already recorded keeps its place in the key order, and a new one goes last |
| `Tracker.ToggleItemRecords` | main.py:64-67 | after a toggle the item is recorded on the date; an item already recorded keeps its place in the date's key order, and a new one goes last |
| `Tracker.ToggleFrame` | main.py:62-65 | a toggle leaves the stored flag object of every other date exactly as it was |
| `Tracker.ToggleItemFrame` | main.py:64-66 | a toggle leaves the stored flag of every other item on the toggled date exactly as it was |
| `Tracker.ToggleTwice` | main.py:60-69 | toggling the same item twice restores every reading |
| `Tracker.ToggleTwiceRecordsFalse` | main.py:62-67 | toggling twice on a date never recorded leaves that date holding exactly one explicit `false` entry for the item, so the state differs from before |
| `Tracker.FirstToggleChecks` | main.py:66 | the first toggle of an item never recorded checks it |
| `Tracker.HoursOf` | main.py:86 | a date with nothing logged reads as zero hours, and a logged date reads as its stored value |
| `Tracker.SetStudyHours` | main.py:71-77 | the date becomes a key; it holds the parsed value, or 0 when parsing fails; every other date keeps its value |
| `Tracker.SetStudyHoursFrame` | main.py:73-76 | logging hours for one date changes neither the hours nor the evaluation of any other date |
| `Tracker.UnparsedIsNoData` | main.py:75 | an input that does not parse stores zero hours, and the date evaluates as `no-data` |
| `Tracker.NegativeHoursStored` | main.py:75 | a negative number is stored unchanged and the date evaluates as `bad` |
| `Tracker.EvaluateOn` | main.py:84-93 | a date is `good` exactly when its logged hours reach its day type's target, and `no-data` exactly when its logged hours are zero, which includes every date with nothing logged |
| `Tracker.DayTypeOfDate` | main.py:87 | a date is `sunday` exactly when `getDay()` gives 0, `saturday` exactly when it gives 6, and `mwf` exactly when it gives an odd number |
| `Tracker.MondayScenario` | main.py:84-93 | 2024-03-04 is `mwf` with target 8: 8 hours is `good`, 5 is `bad`, and nothing logged is `no-data` |
| `Tracker.SaturdayScenario` | main.py:84-93 | 2024-03-09 is a Saturday, and 3.5 hours meets its target |
| `JsObject.Get` | main.py:66 | a lookup yields a value exactly for the keys that have been set, and that value is the stored one |
| `JsObject.Empty` | main.py:8 | the initial `useState({})` object has no value under any key |
| `JsObject.Put` | main.py:62-67 | after the spread-and-set update the key holds the new value, every other key reads as before, the old key order is a prefix of the new one, and only a new key lengthens it |
| `JsObject.PutOrder` | main.py:62-67 | the spread-and-set update keeps the key order for a key already present and puts a new key last |
| `JsObject.KeyCount` | main.py:96 | `Object.keys` lists exactly as many keys as the object has entries |
| `Export.ExportRows` | main.py:95-107 | one row per checklist date key, in key order, with no date twice and every key covered; each row holds that date's weekday, its day type's target, its logged hours (0 when absent), their evaluation and its checked flags; dates with hours but no checklist entry are not exported |
| `Export.RowFor` | main.py:98-106 | the row for a date key holds that date's weekday, the target of its day type, its logged hours (0 when absent), their evaluation and the date's checked flags |
| `Export.MapKeys` | main.py:97-107 | mapping over a list of date keys yields one row per key, in the same order, each describing its date as above |
| `Export.ListsEveryKey` | main.py:96-97 | rows that follow `Object.keys` name no date twice and cover every date key of the checklist |
| `Calendar.MonthDates` | main.py:117-126 | the dates run from day 1 to the month's last day, one per day: the count is the month's Gregorian length, each date is the day after the one before, and the weekdays advance by one each day |
| `Calendar.DaysOfMonth` | main.py:120-125 | the days 1..n of a month, listed in order, are each the day after the one before, with day numbers and weekdays advancing by one |
| `Calendar.DaysInMonth` | main.py:119 | April, June, September and November have 30 days, January, March, May, July, August, October and December have 31, and February has 29 exactly in leap years and 28 otherwise |
| `Calendar.DayOfWeek` | main.py:21 | `getDay()` gives 0 (Sunday) exactly for the days that lie 3 more than a multiple of 7 after 1970-01-01, a Thursday |
| `Calendar.NextDay` | main.py:122 | the next day is the first of a month exactly when the date is the last day of its month; otherwise it is the following day of the same month, and after December the year advances |
| `Calendar.YearLength` | main.py:119 | the twelve month lengths add up to 366 in a leap year and to 365 otherwise |
| `Calendar.FebruaryLengths` | main.py:119 | February has 28 days in 2023 and 1900 and 29 in 2024 and 2000 |
| `Calendar.NextDayAdvances` | main.py:122 | the day after a date, across month and year ends, has the next day number |
| `Calendar.WeekdayOffset` | main.py:122 | a date that lies n days after another falls n weekdays later, counted round the week |
| `Calendar.DayOfWeekAdvances` | main.py:122 | the day after a date falls on the next weekday, with Saturday followed by Sunday |
| `Calendar.KnownWeekdays` | main.py:21 | day 0 is 1970-01-01, a Thursday; 2024-03-04 is a Monday and 2024-03-09 a Saturday |

## Left out

- Rendering: JSX, CSS class choice, the calendar grid and the checkboxes (main.py:128-238). These are presentation only.
- CSV serialisation and download: `Papa.unparse`, `Blob`, `URL.createObjectURL` and the link click (main.py:109-114). These are a foreign library and browser I/O.
- Localised formatting: `Intl.DateTimeFormat` and `toLocaleDateString` (main.py:51-58, 101). The export row carries the weekday number instead of its Korean name.
- Time zones. `toISOString` takes the date key in UTC, while `getDay` and `new Date(y, m, d)` work in local time. The model assumes both see the same civil date, which holds in UTC. It does not model the day shift this causes in other zones.
- Deriving the weekday from a JavaScript `Date`. `Schedule.DayTypeOf` takes the weekday number, and `Calendar.DayOfWeek` computes it from the date.
- `Tracker.ItemId`: item ids are assumed to be ordinary names. They must not be array-index strings such as `"1"`, which `Object.keys` lists before all other keys, and they must not be names a plain object inherits, such as `"toString"`, which `o[k]` reads as set before any toggle. For such ids, `JsObject.Get`, `Tracker.FirstToggleChecks` and `Tracker.ToggleItemRecords` would not describe the source. The schedule's ids (main.py:30-38) are neither kind.
- `parseFloat` itself. Its result enters as an `Option<real>`, with `None` standing for `NaN`. Infinite results are not modelled.
- Months are numbered 1..12 rather than JavaScript's 0..11, and `new Date(y, m + 1, 0)` appears as `DaysInMonth`.
- `Calendar.MonthDates`: compares day numbers rather than millisecond timestamps. At local midnight the two orders agree. The model assumes every local midnight of the month exists. In a time zone where daylight saving time starts at midnight, the loop's date moves to 01:00 on the change day and keeps that time of day through `setDate`. `endDate` stays at 00:00 of the last day, so `date <= endDate` fails there and the source lists one date fewer than the month has. The model always lists every day of the month.
- `Calendar.MonthDates`: does not model that `new Date(y, m, d)` reads a year 0..99 as 1900 + y, nor the limited range of JavaScript dates. The model gives the proleptic Gregorian month of every integer year. For February of year 0, the source would list the 28 days of February 1900 and the model lists 29 days. The selected date starts at today's date, and the component defines no handler that moves it elsewhere (`handleDateChange` is called but never defined).
- `Export.RowFor`: keeps the checked flags apart from the five named columns. The source spreads them into the same object after those columns, so the property order of the CSV row and the overwrite of a named column by an item id with the same name are not modelled. The item ids in the schedule (`wake`, `study` and so on) never coincide with the column names.
- The `schedules` item lists (main.py:28-49). They are static display data, and three of the four lists are placeholder comments.
- `handleDateChange` (main.py:135, 148). It is called but never defined.
- React `useState` mechanics. Each update is modelled as a pure function from the old state to the new one.

=== FILE: calendar.dfy ===
/**
 The proleptic Gregorian calendar as the tracker's JavaScript `Date` objects
 use it: civil dates, month lengths, a day count from 1970-01-01, the weekday
 that `getDay()` reports, and the list of dates of one month that the
 calendar view is drawn from.

 Months are numbered 1..12 here; the component itself uses JavaScript's
 0-based `getMonth()`.
 */
module Calendar {

  datatype Date = Date(year: int, month: int, day: int) {
    /** A date that exists in the calendar. */
    predicate Valid() {
      1 <= month <= 12 && 1 <= day <= DaysInMonth(year, month)
    }
  }

  /** A date that exists; the component derives every date key from one. */
  type CivilDate = d: Date | d.Valid() witness Date(1970, 1, 1)

  /** A weekday number as `Date.prototype.getDay` returns it: 0 is Sunday. */
  type Weekday = w: int | 0 <= w <= 6

  predicate IsLeapYear(y: int) {
    y % 4 == 0 && (y % 100 != 0 || y % 400 == 0)
  }

  /**
   The length of month `m` of year `y`, the day `new Date(y, m + 1, 0)` lands
   on: 30 days in April, June, September and November, 31 in the other
   months but February, and 29 in February exactly in leap years, 28 otherwise.
   */
  function DaysInMonth(y: int, m: int): (n: int)
    requires 1 <= m <= 12
    ensures 28 <= n <= 31
    ensures m == 2 ==> (n == 29 <==> IsLeapYear(y))
    ensures m == 2 && !IsLeapYear(y) ==> n == 28
    ensures m != 2 ==> n >= 30
    ensures m in {4, 6, 9, 11} ==> n == 30
    ensures m in {1, 3, 5, 7, 8, 10, 12} ==> n == 31
  {
    if m == 2 then (if IsLeapYear(y) then 29 else 28)
    else if m == 4 || m == 6 || m == 9 || m == 11 then 30
    else 31
  }

  /** Days of year `y` that come before the first of month `m` (13 means the whole year). */
  function DaysBeforeMonth(y: int, m: int): int
    requires 1 <= m <= 13
  {
    if m == 1 then 0 else DaysBeforeMonth(y, m - 1) + DaysInMonth(y, m - 1)
  }

  /** The number of leap years among 1..x (counted the same way below year 1). */
  function LeapsThrough(x: int): int {
    x / 4 - x / 100 + x / 400
  }

  /** Days from 1970-01-01 to the first of January of year `y` (negative before 1970). */
  function DaysBeforeYear(y: int): int {
    365 * (y - 1970) + LeapsThrough(y - 1) - LeapsThrough(1969)
  }

  /** The day number of a date: 0 for 1970-01-01, one more for each following day. */
  function DaysFromCivil(d: CivilDate): int {
    DaysBeforeYear(d.year) + DaysBeforeMonth(d.year, d.month) + d.day - 1
  }

  /** The weekday `getDay()` reports for the date (1970-01-01 was a Thursday). */
  function DayOfWeek(d: CivilDate): (w: Weekday)
    ensures w == 0 <==> DaysFromCivil(d) % 7 == 3
  {
    var x := DaysFromCivil(d);
    DivisionUnique(x + 4, 7, x / 7 + (x % 7 + 4) / 7, (x % 7 + 4) % 7);
    (x + 4) % 7
  }

  /** The date `setDate(getDate() + 1)` moves to. */
  function NextDay(d: CivilDate): (r: CivilDate)
    ensures r.day == 1 <==> d.day == DaysInMonth(d.year, d.month)
    ensures r.day != 1 ==> r.year == d.year && r.month == d.month && r.day == d.day + 1
    ensures r.day == 1 ==> r.month == d.month % 12 + 1
    ensures r.day == 1 ==> r.year == if d.month == 12 then d.year + 1 else d.year
  {
    if d.day < DaysInMonth(d.year, d.month) then Date(d.year, d.month, d.day + 1)
    else if d.month < 12 then Date(d.year, d.month + 1, 1)
    else Date(d.year + 1, 1, 1)
  }

  /** The twelve months add up to the length of the year. */
  lemma YearLength(y: int)
    ensures DaysBeforeMonth(y, 13) == if IsLeapYear(y) then 366 else 365
  {
    var feb := DaysInMonth(y, 2);
    assert DaysBeforeMonth(y, 2) == 31;
    assert DaysBeforeMonth(y, 3) == 31 + feb;
    assert DaysBeforeMonth(y, 4) == 62 + feb;
    assert DaysBeforeMonth(y, 5) == 92 + feb;
    assert DaysBeforeMonth(y, 6) == 123 + feb;
    assert DaysBeforeMonth(y, 7) == 153 + feb;
    assert DaysBeforeMonth(y, 8) == 184 + feb;
    assert DaysBeforeMonth(y, 9) == 215 + feb;
    assert DaysBeforeMonth(y, 10) == 245 + feb;
    assert DaysBeforeMonth(y, 11) == 276 + feb;
    assert DaysBeforeMonth(y, 12) == 306 + feb;
  }

  /** Dividing by a positive constant: stepping from y-1 to y raises the quotient exactly when n divides y. */
  lemma {:induction false} QuotientStep(y: int, n: int)
    requires n > 0
    ensures y / n - (y - 1) / n == if y % n == 0 then 1 else 0
  {
    var q, r := y / n, y % n;
    assert y == n * q + r && 0 <= r < n;
    if r == 0 {
      assert y - 1 == n * (q - 1) + (n - 1);
      DivisionUnique(y - 1, n, q - 1, n - 1);
    } else {
      assert y - 1 == n * q + (r - 1);
      DivisionUnique(y - 1, n, q, r - 1);
    }
  }

  /** Euclidean division by a positive divisor has only one quotient and remainder. */
  lemma DivisionUnique(x: int, n: int, q: int, r: int)
    requires n > 0 && 0 <= r < n && x == n * q + r
    ensures x / n == q && x % n == r
  {
    var q', r' := x / n, x % n;
    assert n * (q - q') == r' - r;
    if q - q' >= 1 {
      MultipleAtLeast(n, q - q');
    } else if q' - q >= 1 {
      MultipleAtLeast(n, q' - q);
    }
  }

  lemma MultipleAtLeast(n: int, k: int)
    requires n > 0 && k >= 1
    ensures n * k >= n
  {
    assert n * k == n * (k - 1) + n;
  }

  /** Exactly the leap years add a day to the running leap count. */
  lemma {:induction false} LeapStep(y: int)
    ensures LeapsThrough(y) - LeapsThrough(y - 1) == if IsLeapYear(y) then 1 else 0
  {
    QuotientStep(y, 4);
    QuotientStep(y, 100);
    QuotientStep(y, 400);
    if y % 400 == 0 {
      DivisionUnique(y, 100, 4 * (y / 400), 0);
    }
    if y % 100 == 0 {
      DivisionUnique(y, 4, 25 * (y / 100), 0);
    }
  }

  /** Consecutive years start a year's length apart. */
  lemma {:induction false} YearStep(y: int)
    ensures DaysBeforeYear(y + 1) == DaysBeforeYear(y) + if IsLeapYear(y) then 366 else 365
  {
    LeapStep(y);
  }

  /** The day after a date has the next day number. */
  lemma {:induction false} NextDayAdvances(d: CivilDate)
    ensures DaysFromCivil(NextDay(d)) == DaysFromCivil(d) + 1
  {
    if d.day < DaysInMonth(d.year, d.month) {
    } else if d.month < 12 {
    } else {
      YearStep(d.year);
      YearLength(d.year);
    }
  }

  /** A date `offset` days after another falls `offset` weekdays later, counted round the week. */
  lemma {:induction false} WeekdayOffset(first: CivilDate, later: CivilDate, offset: nat)
    requires DaysFromCivil(later) == DaysFromCivil(first) + offset
    ensures DayOfWeek(later) == (DayOfWeek(first) + offset) % 7
  {
    var x := DaysFromCivil(first) + 4;
    var q, w := x / 7, x % 7;
    var carry, rest := (w + offset) / 7, (w + offset) % 7;
    assert x + offset == 7 * (q + carry) + rest;
    DivisionUnique(x + offset, 7, q + carry, rest);
  }

  /** The day after a date falls on the next weekday, Saturday wrapping round to Sunday. */
  lemma {:induction false} DayOfWeekAdvances(d: CivilDate)
    ensures DayOfWeek(NextDay(d)) == (DayOfWeek(d) + 1) % 7
  {
    NextDayAdvances(d);
    WeekdayOffset(d, NextDay(d), 1);
  }

  /**
   The dates from the first to the last day of the month of `selected`,
   one per day, stepping with `NextDay` while the date is not after the
   month's last day.
   */
  method MonthDates(selected: CivilDate) returns (dates: seq<CivilDate>)
    ensures |dates| == DaysInMonth(selected.year, selected.month)
    ensures forall i :: 0 <= i < |dates| ==> dates[i] == Date(selected.year, selected.month, i + 1)
    ensures forall i :: 0 < i < |dates| ==> dates[i] == NextDay(dates[i - 1])
    ensures forall i :: 0 <= i < |dates| ==> DaysFromCivil(dates[i]) == DaysFromCivil(dates[0]) + i
    ensures forall i :: 0 <= i < |dates| ==> DayOfWeek(dates[i]) == (DayOfWeek(dates[0]) + i) % 7
  {
    var y, m := selected.year, selected.month;
    var last := DaysInMonth(y, m);
    var start: CivilDate := Date(y, m, 1);
    var end: CivilDate := Date(y, m, last);
    dates := [];
    var date := start;
    while DaysFromCivil(date) <= DaysFromCivil(end)
      invariant |dates| <= last
      invariant DaysFromCivil(date) == DaysFromCivil(start) + |dates|
      invariant |dates| < last ==> date == Date(y, m, |dates| + 1)
      invariant forall i :: 0 <= i < |dates| ==> dates[i] == Date(y, m, i + 1)
      decreases DaysFromCivil(end) - DaysFromCivil(date)
    {
      dates := dates + [date];
      NextDayAdvances(date);
      date := NextDay(date);
    }
    DaysOfMonth(y, m, dates);
  }

  /** The days of one month, listed in order, follow one another in day number and weekday. */
  lemma DaysOfMonth(y: int, m: int, dates: seq<CivilDate>)
    requires 1 <= m <= 12 && |dates| == DaysInMonth(y, m)
    requires forall i :: 0 <= i < |dates| ==> dates[i] == Date(y, m, i + 1)
    ensures forall i :: 0 < i < |dates| ==> dates[i] == NextDay(dates[i - 1])
    ensures forall i :: 0 <= i < |dates| ==> DaysFromCivil(dates[i]) == DaysFromCivil(dates[0]) + i
    ensures forall i :: 0 <= i < |dates| ==> DayOfWeek(dates[i]) == (DayOfWeek(dates[0]) + i) % 7
  {
    forall i | 0 <= i < |dates|
      ensures DayOfWeek(dates[i]) == (DayOfWeek(dates[0]) + i) % 7
    {
      WeekdayOffset(dates[0], dates[i], i);
    }
  }

  /** Known dates: the day count starts on a Thursday, and 2024-03-04 was a Monday. */
  lemma KnownWeekdays()
    ensures DaysFromCivil(Date(1970, 1, 1)) == 0 && DayOfWeek(Date(1970, 1, 1)) == 4
    ensures DayOfWeek(Date(2024, 3, 4)) == 1
    ensures DayOfWeek(Date(2024, 3, 9)) == 6
  {
  }

  /** Century years are leap years only when divisible by 400. */
  lemma FebruaryLengths()
    ensures DaysInMonth(2023, 2) == 28 && DaysInMonth(2024, 2) == 29
    ensures DaysInMonth(1900, 2) == 28 && DaysInMonth(2000, 2) == 29
  {
  }
}

=== FILE: evaluation.dfy ===
/**
 The three-way judgement of a day's logged study hours against its target.
 The comparison with the target comes first, so zero hours is `NoData`
 only because every target is positive.
 */
module Evaluation {

  datatype Outcome = Good | NoData | Bad

  /** `evaluateStudyPerformance` once the hours and the target are known. */
  function Evaluate(actual: real, target: real): (e: Outcome)
    ensures e == Good <==> actual >= target
    ensures e == NoData <==> actual < target && actual == 0.0
    ensures e == Bad <==> actual < target && actual != 0.0
  {
    if actual >= target then Good
    else if actual == 0.0 then NoData
    else Bad
  }

  /** The other order of tests: zero hours first, then the target. */
  function EvaluateZeroFirst(actual: real, target: real): Outcome {
    if actual == 0.0 then NoData
    else if actual >= target then Good
    else Bad
  }

  /** With a positive target the order of the two tests does not matter. */
  lemma OrderIrrelevantForPositiveTarget(actual: real, target: real)
    requires target > 0.0
    ensures Evaluate(actual, target) == EvaluateZeroFirst(actual, target)
  {
  }

  /** With a target of zero or less the order matters: zero hours would count as met. */
  lemma OrderMattersForNonPositiveTarget(target: real)
    requires target <= 0.0
    ensures Evaluate(0.0, target) == Good
    ensures EvaluateZeroFirst(0.0, target) == NoData
  {
  }

  /** Zero hours is never good against a positive target. */
  lemma ZeroHoursIsNoData(target: real)
    requires target > 0.0
    ensures Evaluate(0.0, target) == NoData
  {
  }

  /** Meeting the target exactly counts as good; anything below it (and not zero) is bad. */
  lemma TargetBoundary(target: real, shortfall: real)
    requires shortfall > 0.0 && shortfall != target
    ensures Evaluate(target, target) == Good
    ensures Evaluate(target - shortfall, target) == Bad
  {
  }

  /** Logging more hours never turns a good day into a worse one. */
  lemma GoodIsUpwardClosed(actual: real, more: real, target: real)
    requires Evaluate(actual, target) == Good && actual <= more
    ensures Evaluate(more, target) == Good
  {
  }
}

=== FILE: export.dfy ===
/**
 The rows the CSV export is built from: one per date key of the checklist,
 in key order, carrying the date's weekday, target, logged hours,
 evaluation and checked flags. Turning the rows into CSV text and
 downloading it is not modelled.
 */
module Export {
  import opened Calendar
  import opened Schedule
  import opened Evaluation
  import opened JsObject
  import opened Tracker

  datatype Row = Row(
    date: CivilDate,
    weekday: Weekday,
    target: real,
    actual: real,
    evaluation: Outcome,
    items: Items)

  /**
   What a row says about its date: the weekday, the target of that weekday's
   day type, the logged hours (zero when none), their evaluation, and the
   flags checked on that date.
   */
  predicate Describes(row: Row, entries: map<CivilDate, Items>, h: StudyHours) {
    && row.date in entries
    && row.weekday == DayOfWeek(row.date)
    && row.target == TargetFor(DayTypeOf(row.weekday))
    && row.actual == HoursOf(h, row.date)
    && row.evaluation == Evaluate(row.actual, row.target)
    && row.items == entries[row.date]
  }

  /** The row `exportToCSV` builds for one date key of the checklist. */
  function RowFor(entries: map<CivilDate, Items>, h: StudyHours, date: CivilDate): (row: Row)
    requires date in entries
    ensures row.date == date && Describes(row, entries, h)
  {
    var weekday := DayOfWeek(date);
    Row(date, weekday, TargetFor(DayTypeOf(weekday)), HoursOf(h, date), EvaluateOn(h, date), entries[date])
  }

  /** `exportToCSV` up to the serialisation: `Object.keys(checklist).map(...)`. */
  method ExportRows(c: Checklist, h: StudyHours) returns (rows: seq<Row>)
    ensures |rows| == |c.keys| == |c.entries|
    ensures forall i :: 0 <= i < |rows| ==> rows[i].date == c.keys[i] && Describes(rows[i], c.entries, h)
    ensures forall i, j :: 0 <= i < j < |rows| ==> rows[i].date != rows[j].date
    ensures forall k :: k in c.entries ==> exists i :: 0 <= i < |rows| && rows[i].date == k
  {
    KeyCount(c);
    rows := MapKeys(c.keys, c.entries, h);
    ListsEveryKey(c, rows);
  }

  /** The loop of `allDates.map(...)`: one row per listed key, in order. */
  method MapKeys(keys: seq<CivilDate>, entries: map<CivilDate, Items>, h: StudyHours) returns (rows: seq<Row>)
    requires forall i :: 0 <= i < |keys| ==> keys[i] in entries
    ensures |rows| == |keys|
    ensures forall i :: 0 <= i < |rows| ==> rows[i].date == keys[i] && Describes(rows[i], entries, h)
  {
    rows := [];
    var n := 0;
    while n < |keys|
      invariant n == |rows| <= |keys|
      invariant forall i :: 0 <= i < n ==> rows[i].date == keys[i] && Describes(rows[i], entries, h)
    {
      rows := rows + [RowFor(entries, h, keys[n])];
      n := n + 1;
    }
  }

  /** Rows that follow the checklist's key order cover every date key of it, each once. */
  lemma ListsEveryKey(c: Checklist, rows: seq<Row>)
    requires |rows| == |c.keys|
    requires forall i :: 0 <= i < |rows| ==> rows[i].date == c.keys[i]
    ensures forall i, j :: 0 <= i < j < |rows| ==> rows[i].date != rows[j].date
    ensures forall k :: k in c.entries ==> exists i :: 0 <= i < |rows| && rows[i].date == k
  {
    forall k | k in c.entries
      ensures exists i :: 0 <= i < |rows| && rows[i].date == k
    {
      assert k in c.keys;
      var i :| 0 <= i < |c.keys| && c.keys[i] == k;
      assert rows[i].date == k;
    }
  }
}

=== FILE: js_object.dfy ===
/**
 A plain JavaScript object used as a dictionary, as the component's state
 holds them: a map from keys to values that also remembers the order in
 which keys were first added, which is the order `Object.keys` lists them
 in (for keys that are not array indices, as date keys and item ids are not).
 */
module JsObject {
  import opened Wrappers

  datatype Obj<K(!new), V> = Obj(keys: seq<K>, entries: map<K, V>) {
    /** Every key is listed once, and the listed keys are exactly the stored ones. */
    ghost predicate Valid() {
      && (forall i, j :: 0 <= i < j < |keys| ==> keys[i] != keys[j])
      && (forall k :: k in entries <==> k in keys)
    }
  }

  type Object<K(!new), V> = o: Obj<K, V> | o.Valid() witness Obj([], map[])

  /** `{}`: an object with no keys. */
  function Empty<K(!new), V>(): (o: Object<K, V>)
    ensures forall k :: Get(o, k) == None
  {
    Obj([], map[])
  }

  /** `o[k]`: the stored value, or nothing (`undefined`) for a key never set. */
  function Get<K(!new), V>(o: Object<K, V>, k: K): (r: Option<V>)
    ensures r.Some? <==> k in o.keys
    ensures r.Some? ==> r.value == o.entries[k]
  {
    if k in o.entries then Some(o.entries[k]) else None
  }

  /**
   `{...o, [k]: v}`: the object with `k` bound to `v`. A key already present
   keeps its place in the key order; a new key goes last.
   */
  function Put<K(!new), V>(o: Object<K, V>, k: K, v: V): (r: Object<K, V>)
    ensures r.entries == o.entries[k := v]
    ensures Get(r, k) == Some(v)
    ensures forall k' :: k' != k ==> Get(r, k') == Get(o, k')
    ensures |o.keys| <= |r.keys| && r.keys[..|o.keys|] == o.keys
    ensures |r.keys| == if k in o.keys then |o.keys| else |o.keys| + 1
  {
    if k in o.entries then Obj(o.keys, o.entries[k := v])
    else Obj(o.keys + [k], o.entries[k := v])
  }

  /** The exact key order after `Put`: unchanged for a key already present, the new key last otherwise. */
  lemma PutOrder<K(!new), V>(o: Object<K, V>, k: K, v: V)
    ensures k in o.entries ==> Put(o, k, v).keys == o.keys
    ensures k !in o.entries ==> Put(o, k, v).keys == o.keys + [k]
  {
  }

  /** An object lists exactly as many keys as it stores entries. */
  lemma {:induction false} KeyCount<K(!new), V>(o: Object<K, V>)
    ensures |o.keys| == |o.entries|
  {
    DistinctCount(o.keys);
    assert o.entries.Keys == set k | k in o.keys;
  }

  lemma {:induction false} DistinctCount<K>(s: seq<K>)
    requires forall i, j :: 0 <= i < j < |s| ==> s[i] != s[j]
    ensures |set k | k in s| == |s|
  {
    if s != [] {
      var init := s[..|s| - 1];
      DistinctCount(init);
      assert (set k | k in s) == (set k | k in init) + {s[|s| - 1]};
      assert s[|s| - 1] !in (set k | k in init);
    }
  }
}

=== FILE: schedule.dfy ===
/**
 The day classifier and the study-hours targets: every weekday belongs to
 one of four day types, and each day type has a fixed daily target.
 */
module Schedule {
  import opened Calendar

  datatype DayType = Sunday | Saturday | Mwf | Tt

  /** `getDayType`: the day type of a weekday number (0 is Sunday). */
  function DayTypeOf(day: Weekday): (t: DayType)
    ensures t == Sunday <==> day == 0
    ensures t == Saturday <==> day == 6
    ensures t == Mwf <==> day % 2 == 1
    ensures t == Tt <==> day == 2 || day == 4
  {
    if day == 0 then Sunday
    else if day == 6 then Saturday
    else if day == 1 || day == 3 || day == 5 then Mwf
    else Tt
  }

  /** `targetStudyHours`: the daily study target, in hours, per day type. */
  const TargetStudyHours: map<DayType, real> :=
    map[Mwf := 8.0, Tt := 9.5, Saturday := 3.0, Sunday := 11.0]

  /** The target for a day type; the table has an entry for every day type. */
  function TargetFor(t: DayType): (hours: real)
    ensures hours > 0.0
    ensures t == Mwf ==> hours == 8.0
    ensures t == Tt ==> hours == 9.5
    ensures t == Saturday ==> hours == 3.0
    ensures t == Sunday ==> hours == 11.0
  {
    TargetTableTotal();
    TargetStudyHours[t]
  }

  /** The table covers every day type, and every target is positive. */
  lemma TargetTableTotal()
    ensures forall t: DayType :: t in TargetStudyHours && TargetStudyHours[t] > 0.0
  {
    forall t: DayType
      ensures t in TargetStudyHours && TargetStudyHours[t] > 0.0
    {
      match t
      case Sunday =>
      case Saturday =>
      case Mwf =>
      case Tt =>
    }
  }

  /** The target a weekday gets: Sunday 11, Saturday 3, Monday/Wednesday/Friday 8, Tuesday/Thursday 9.5. */
  lemma WeekdayTargets(day: Weekday)
    ensures day == 0 ==> TargetFor(DayTypeOf(day)) == 11.0
    ensures day == 6 ==> TargetFor(DayTypeOf(day)) == 3.0
    ensures day in {1, 3, 5} ==> TargetFor(DayTypeOf(day)) == 8.0
    ensures day in {2, 4} ==> TargetFor(DayTypeOf(day)) == 9.5
  {
  }
}

=== FILE: tracker.dfy ===
/**
 The tracker's per-date state and its updates: the checklist (date key to
 item id to checked flag) and the logged study hours (date key to hours),
 with the reads the component makes of them.
 */
module Tracker {
  import opened Wrappers
  import opened Calendar
  import opened Schedule
  import opened Evaluation
  import opened JsObject

  type ItemId = string

  /** The checked flags recorded for one date, in the order the items were first toggled. */
  type Items = Object<ItemId, bool>

  /** The `checklist` state: date keys in the order they were first touched. */
  type Checklist = Object<CivilDate, Items>

  /** The `studyHours` state. */
  type StudyHours = map<CivilDate, real>

  /** `prev[dateKey]` spread into a new object: the date's flags, or none (`{...undefined}` is `{}`). */
  function ItemsOn(c: Checklist, key: CivilDate): (items: Items)
    ensures key in c.entries ==> items == c.entries[key]
    ensures key !in c.entries ==> items.keys == [] && items.entries == map[]
  {
    Get(c, key).GetOr(Empty())
  }

  /** `isChecked`: an entry never recorded reads as unchecked. */
  function IsChecked(c: Checklist, key: CivilDate, item: ItemId): (checked: bool)
    ensures checked <==> key in c.entries && item in c.entries[key].entries && c.entries[key].entries[item]
  {
    Get(ItemsOn(c, key), item).GetOr(false)
  }

  /** `handleCheck`: flips one item of one date, recording the date if it is new. */
  function Toggle(c: Checklist, key: CivilDate, item: ItemId): (r: Checklist)
    ensures IsChecked(r, key, item) == !IsChecked(c, key, item)
    ensures forall k, i :: (k != key || i != item) ==> IsChecked(r, k, i) == IsChecked(c, k, i)
  {
    var items := ItemsOn(c, key);
    Put(c, key, Put(items, item, !IsChecked(c, key, item)))
  }

  /** A toggle is the spread-and-set update of the checklist with the date's updated flags. */
  lemma ToggleIsPut(c: Checklist, key: CivilDate, item: ItemId)
    ensures Toggle(c, key, item) == Put(c, key, Put(ItemsOn(c, key), item, !IsChecked(c, key, item)))
  {
  }

  /** A toggle records the date; a date already recorded keeps its place in the key order, and a new one goes last. */
  lemma ToggleRecords(c: Checklist, key: CivilDate, item: ItemId)
    ensures Toggle(c, key, item).entries.Keys == c.entries.Keys + {key}
    ensures key in c.entries ==> Toggle(c, key, item).keys == c.keys
    ensures key !in c.entries ==> Toggle(c, key, item).keys == c.keys + [key]
  {
    var inner := Put(ItemsOn(c, key), item, !IsChecked(c, key, item));
    ToggleIsPut(c, key, item);
    PutOrder(c, key, inner);
  }

  /** What a toggle stores under the toggled date: the date's flags with the one item flipped. */
  lemma ToggleStores(c: Checklist, key: CivilDate, item: ItemId)
    ensures Toggle(c, key, item).entries[key] == Put(ItemsOn(c, key), item, !IsChecked(c, key, item))
  {
    ToggleIsPut(c, key, item);
  }

  /**
   A toggle records the item on the date; an item already recorded there
   keeps its place in the date's key order, and a new one goes last.
   */
  lemma ToggleItemRecords(c: Checklist, key: CivilDate, item: ItemId)
    ensures Toggle(c, key, item).entries[key].entries.Keys == ItemsOn(c, key).entries.Keys + {item}
    ensures item in ItemsOn(c, key).entries ==> Toggle(c, key, item).entries[key].keys == ItemsOn(c, key).keys
    ensures item !in ItemsOn(c, key).entries ==> Toggle(c, key, item).entries[key].keys == ItemsOn(c, key).keys + [item]
  {
    var items := ItemsOn(c, key);
    var flag := !IsChecked(c, key, item);
    ToggleStores(c, key, item);
    PutOrder(items, item, flag);
  }

  /** A toggle leaves the flag objects of every other date as they were. */
  lemma ToggleFrame(c: Checklist, key: CivilDate, item: ItemId)
    ensures forall k :: k in c.entries && k != key ==> Toggle(c, key, item).entries[k] == c.entries[k]
  {
    ToggleIsPut(c, key, item);
  }

  /** A toggle leaves the other items' stored flags on the toggled date as they were. */
  lemma ToggleItemFrame(c: Checklist, key: CivilDate, item: ItemId)
    ensures forall i :: i in ItemsOn(c, key).entries && i != item ==>
      Toggle(c, key, item).entries[key].entries[i] == ItemsOn(c, key).entries[i]
  {
    var items := ItemsOn(c, key);
    ToggleStores(c, key, item);
    assert Put(items, item, !IsChecked(c, key, item)).entries == items.entries[item := !IsChecked(c, key, item)];
  }

  /** Toggling twice restores every reading. */
  lemma {:induction false} ToggleTwice(c: Checklist, key: CivilDate, item: ItemId, k: CivilDate, i: ItemId)
    ensures IsChecked(Toggle(Toggle(c, key, item), key, item), k, i) == IsChecked(c, k, i)
  {
    var once := Toggle(c, key, item);
    if k == key && i == item {
      assert IsChecked(once, k, i) == !IsChecked(c, k, i);
    } else {
      assert IsChecked(once, k, i) == IsChecked(c, k, i);
    }
  }

  /**
   Toggling twice restores the readings but not the state itself: on a date
   never recorded, the item comes back as an explicit `false` entry.
   */
  lemma ToggleTwiceRecordsFalse(c: Checklist, key: CivilDate, item: ItemId)
    requires key !in c.entries
    ensures Toggle(Toggle(c, key, item), key, item) != c
    ensures Toggle(Toggle(c, key, item), key, item).entries[key].keys == [item]
    ensures Toggle(Toggle(c, key, item), key, item).entries[key].entries == map[item := false]
  {
    var once := Toggle(c, key, item);
    assert once.entries[key].keys == [item];
    assert once.entries[key].entries == map[item := true];
    var twice := Toggle(once, key, item);
    assert key in twice.entries;
  }

  /** The first toggle of an item nobody has recorded checks it. */
  lemma FirstToggleChecks(c: Checklist, key: CivilDate, item: ItemId)
    requires key !in c.entries || item !in c.entries[key].entries
    ensures IsChecked(Toggle(c, key, item), key, item)
  {
  }

  /** `studyHours[dateKey] || 0`: a date with nothing logged reads as zero hours. */
  function HoursOf(h: StudyHours, key: CivilDate): (hours: real)
    ensures key !in h ==> hours == 0.0
    ensures key in h ==> hours == h[key]
  {
    if key in h then h[key] else 0.0
  }

  /**
   `handleStudyHoursChange`: stores the parsed number, or 0 when the input
   does not parse (`parseFloat` gives `NaN`). Nothing bounds the value.
   */
  function SetStudyHours(h: StudyHours, key: CivilDate, parsed: Option<real>): (r: StudyHours)
    ensures r.Keys == h.Keys + {key}
    ensures parsed.None? ==> r[key] == 0.0
    ensures parsed.Some? ==> r[key] == parsed.value
    ensures forall k :: k in h && k != key ==> r[k] == h[k]
  {
    h[key := parsed.GetOr(0.0)]
  }

  /** The day type of a date key, as `getDayType` sees the date. */
  function DayTypeOfDate(key: CivilDate): (t: DayType)
    ensures t == Sunday <==> DayOfWeek(key) == 0
    ensures t == Saturday <==> DayOfWeek(key) == 6
    ensures t == Mwf <==> DayOfWeek(key) % 2 == 1
  {
    DayTypeOf(DayOfWeek(key))
  }

  /** `evaluateStudyPerformance(date)`: the date's logged hours against its day type's target. */
  function EvaluateOn(h: StudyHours, key: CivilDate): (e: Outcome)
    ensures e == Good <==> HoursOf(h, key) >= TargetFor(DayTypeOfDate(key))
    ensures e == NoData <==> HoursOf(h, key) == 0.0
    ensures key !in h ==> e == NoData
  {
    Evaluate(HoursOf(h, key), TargetFor(DayTypeOfDate(key)))
  }

  /** Logging hours for one date changes no other date's reading or evaluation. */
  lemma SetStudyHoursFrame(h: StudyHours, key: CivilDate, parsed: Option<real>, other: CivilDate)
    requires other != key
    ensures HoursOf(SetStudyHours(h, key, parsed), other) == HoursOf(h, other)
    ensures EvaluateOn(SetStudyHours(h, key, parsed), other) == EvaluateOn(h, other)
  {
  }

  /** Input that does not parse logs zero hours, which evaluates as no data. */
  lemma UnparsedIsNoData(h: StudyHours, key: CivilDate)
    ensures HoursOf(SetStudyHours(h, key, None), key) == 0.0
    ensures EvaluateOn(SetStudyHours(h, key, None), key) == NoData
  {
  }

  /** A negative number is stored as given, and the day evaluates as bad. */
  lemma NegativeHoursStored(h: StudyHours, key: CivilDate, hours: real)
    requires hours < 0.0
    ensures HoursOf(SetStudyHours(h, key, Some(hours)), key) == hours
    ensures EvaluateOn(SetStudyHours(h, key, Some(hours)), key) == Bad
  {
  }

  /** A Monday (2024-03-04) has the 8-hour target: 8 hours is good, 5 is bad, nothing logged is no data. */
  lemma MondayScenario()
    ensures DayTypeOfDate(Date(2024, 3, 4)) == Mwf
    ensures TargetFor(DayTypeOfDate(Date(2024, 3, 4))) == 8.0
    ensures EvaluateOn(map[Date(2024, 3, 4) := 8.0], Date(2024, 3, 4)) == Good
    ensures EvaluateOn(map[Date(2024, 3, 4) := 5.0], Date(2024, 3, 4)) == Bad
    ensures EvaluateOn(map[], Date(2024, 3, 4)) == NoData
  {
    KnownWeekdays();
  }

  /** A Saturday (2024-03-09) has the 3-hour target, so 3.5 hours is good. */
  lemma SaturdayScenario()
    ensures DayTypeOfDate(Date(2024, 3, 9)) == Saturday
    ensures EvaluateOn(map[Date(2024, 3, 9) := 3.5], Date(2024, 3, 9)) == Good
  {
    KnownWeekdays();
  }
}

=== FILE: wrappers.dfy ===
/** The optional value used where JavaScript yields `undefined` or `NaN`. */
module Wrappers {

  datatype Option<+T> = None | Some(value: T) {

    /** The carried value, or `default` when there is none (JavaScript's `x || default`). */
    function GetOr(default: T): T {
      if Some? then value else default
    }
  }
}
